=== FILE: README.md ===
# Quiz bot publish attempt, modelled in Dafny

The bot asks a language model for one multiple-choice programming question and
posts it to a Telegram channel as a quiz poll. It keeps a list of the
questions it has already asked (`all_quest`), so it can tell the model not to
repeat them, and trims that list back to `MAX_QUESTIONS = 50` on each send once
it has grown past that. This project models the logic of one
publish attempt (`send_quiz` in `bot.py`) and the start-up load of the list:

1. **Load** (`History.LoadOrEmpty`): the stored list, or `[]` when reading or
   decoding `questions.json` raised.
2. **Render** (`History.Render`, `History.RenderHistory`): the list becomes
   `"1. A. 2. B. "`, one `"{i}. {q}. "` per question, numbered from 1.
3. **Prompt** (`Prompt.BuildPrompt`): the fixed template `basic_prompt`. When
   the rendering is non-empty, its one "do not repeat" clause is replaced by a
   clause that lists the rendered questions. Python's `str.replace` is
   modelled as `Replace.ReplaceAll`.
4. **Clean** (`Response.Clean`): strip white space (`Whitespace.Strip`, which
   follows Python's `str.isspace`), delete every "```json", then every "```",
   then strip again.
5. **Extract and check** (`Extraction.Extract`, `Publish.Prepare`): `question`
   and `options` are required, and a missing one raises `KeyError`.
   `correct_option_id` defaults to 0 and `explanation` defaults to `""`. The
   poll is sent only when `0 <= correct_option_id < len(options)`.
6. **Send and record** (`Publish.Finish`, `History.Record`): after a send
   that succeeded, the question is appended. The front entry is dropped when
   the list has grown past the cap. Then the list is written back to the file.

`Publish.Run` and `Publish.SendQuiz` put the steps together. The collaborators
are parameters. The model is a function from prompt to reply, or to `None`
when the call raised. The JSON decoder
is a function from cleaned text to `Option<Fields>`. Whether the poll send
succeeded is a boolean. How the file write went is a `Publish.SaveStep`: it
succeeded, opening the file raised, or the dump raised after opening had
already emptied the file.
`Response.BackendReply` models what `gemini.py` returns when it returns: a
single space when the HTTP status is not 200, the message content otherwise.
`gemini.py` can also raise: the POST itself can fail, and so can reading
`choices[0].message.content` from a 200 response. `send_quiz` calls it
outside every `try`, so that exception leaves the attempt before anything has
changed (`Outcome.ModelFailed`).

Points about what the code does that a reader might not expect:

- A missing `question` or `options` key raises `KeyError` out of `send_quiz`.
  It is not a `False` return. This is `Outcome.KeyMissing`, whose `Returned()`
  is `None`, as it is for `Outcome.ModelFailed`.
- A failed file write after a successful send makes `send_quiz` return
  `False`. The in-memory append is kept (`Outcome.SaveFailed`). So `False`
  does not imply that the history is unchanged (`Publish.SaveFailureKeepsQuestion`).
- `open("questions.json", "w")` empties the file before `json.dump` writes it.
  If the dump then raises, the file is left empty or holding an unfinished
  array. The next start-up load then falls back to the empty history
  (`Publish.FileEffect.CutOff`).
- The cap is not an invariant of a loaded file. A list that is already longer
  than 50 loses one entry per send, so its length stays where it was
  (`History.RecordAllKeepsOverlongLength`).
- The text kept for diagnosis on a decode failure is the cleaned reply, not
  the raw one (`Outcome.NotJson`).

## Model

| member | source | states |
|---|---|---|
| History.LoadOrEmpty | bot.py:20-26 | a failed load gives the empty history; a successful one gives the stored list unchanged |
| Decimal.NatToString | bot.py:52 | the number in a rendered entry is a non-empty digit string without leading zero whose decimal value is the index |
| History.RenderHistory | bot.py:49-53 | the counter-and-accumulator loop produces exactly the numbered listing of the whole history, in order |
| History.RenderEmptyIff | bot.py:49-56 | the rendering is empty exactly when the history is, which is the condition on which the prompt is changed |
| History.RenderTwo | bot.py:49-53 | `["A", "B"]` renders as `"1. A. 2. B. "` |
| History.RenderListsEvery | bot.py:49-53 | every question at position i occurs in the rendering as `"{i+1}. {q}. "`, and the rendering is non-empty |
| History.Record | bot.py:100-105 | after a send the new question is last, the entries before it are the old history minus at most its front, and the length is min(n+1, 50) from a history within the cap, or n from one at or above it |
| History.RecordEvictsOldestIff | bot.py:101-105 | the question is plainly appended exactly when the history is below the cap; at or above it, exactly the front entry is dropped and the rest keep their order |
| History.RecordAllKeepsWindow | bot.py:101-105 | any run of sends from a history within the cap leaves exactly the last 50 of all questions, in the order they were asked |
| History.RecordAllKeepsOverlongLength | bot.py:101-105 | a loaded history longer than the cap keeps its length through any number of sends |
| Replace.ReplaceAll | bot.py:57-60 | Python's `str.replace`: the text does not grow when the replacement is no longer than the pattern, and does not shrink when it is no shorter |
| Replace.ReplaceAbsent | bot.py:57-60 | replacing a substring that does not occur leaves the string unchanged |
| Replace.ReplaceSingle | bot.py:57-60 | when the pattern can occur only at one place, `replace` changes exactly that place and keeps the text before and after it |
| Prompt.ReplaceInTemplate | bot.py:28-43 | the template contains the "do not repeat" clause exactly once, so replacing it keeps the intro and the format instructions |
| Prompt.BuildPrompt | bot.py:55-60 | an empty rendering gives the template unchanged; otherwise the prompt is the template's intro, the clause listing the rendering, and the template's remaining instructions unchanged |
| Prompt.PromptUnchangedIff | bot.py:55-60 | the prompt equals the template exactly when the history is empty |
| Prompt.PromptContainsRendering | bot.py:56-60 | a non-empty rendering appears verbatim in the prompt |
| Prompt.PromptListsHistory | bot.py:49-60 | every earlier question appears in the prompt under its 1-based number |
| Whitespace.Strip | bot.py:66 | the stripped text has no white space at either end |
| Whitespace.StripRemovesOnlySpace | bot.py:66 | the stripped text sits inside the input with only white space before and after it |
| Whitespace.StripPadded | bot.py:66 | stripping white space around a stripped core gives back exactly that core |
| Whitespace.StripIdempotent | bot.py:66 | stripping twice is stripping once |
| Replace.RemovingFencesLeavesNone | bot.py:67 | after deleting every "```" no "```" is left, even where the pieces meet |
| Response.Clean | bot.py:66-67 | the cleaned reply has no white space at either end and contains neither "```" nor "```json" |
| Response.CleanFixedPointIff | bot.py:66-67 | cleaning leaves a text unchanged exactly when it has no white space at either end and no "```" |
| Response.CleanPadded | bot.py:66-67 | a clean core with white space on either side, such as `"\n{...}\n"`, cleans to exactly that core |
| Response.AllSpaceCleansEmpty | bot.py:66-67 | a reply of white space only cleans to the empty text |
| Response.CleanIdempotent | bot.py:66-67 | cleaning a cleaned reply returns it unchanged |
| Response.CleanFenced | bot.py:66-67 | a reply `"```json\n" + body + "\n```"` cleans to exactly the body, for any clean body |
| Response.BackendReply | gemini.py:36-41 | the reply is the single space exactly when the status is not 200 or the content is itself one space; with status 200 it is the content |
| Response.FailureReplyCleansEmpty | gemini.py:36-39 | the backend's reply to a non-200 status cleans to the empty text |
| Extraction.Extract | bot.py:76-80 | extraction fails exactly when `question` or `options` is missing, and names the first missing key in the order they are read; on success the two required values are copied, and each optional key gives its own value when present and its default (0, `""`) when absent |
| Extraction.ExtractFill | bot.py:76-80 | an object with all four keys reads back as the same quiz |
| Extraction.ExtractDefaults | bot.py:79-80 | with both required keys present, extraction succeeds; the answer index is the given one or 0 and the explanation the given one or `""`, each independently of the other |
| Extraction.NoOptionsInvalid | bot.py:82-85 | an empty option list never passes the answer-index check |
| Publish.Outcome.Returned | bot.py:63-115 | `send_quiz` returns `True` exactly after a send and a save that both succeeded, raises exactly for a missing key or a model call that raised, and returns `False` for every other stop |
| Publish.Prepare | bot.py:69-85 | a quiz is produced exactly when the reply decodes, has both required keys and a valid answer index, and it is the extracted quiz; a reply that does not decode stops with its cleaned text, a missing key with the key's name, a bad index with the index and the option count |
| Publish.Finish | bot.py:87-115 | a stop before the send and a send that raises leave history and file alone, the latter as `SendFailed`; a successful send records the question whatever the write does; the file holds the new history exactly on success; a failed write leaves the file untouched when opening raised and cut off when the dump raised |
| Publish.Run | bot.py:65-115 | once the model has replied, the attempt returns `True` exactly when the cleaned reply is sendable and send and save both succeed, and raises exactly when a required key is missing; an undecodable reply ends in `NotJson` with the cleaned text and nothing changed; a failed send ends in `SendFailed` with nothing changed; a successful send records the decoded question; the written file reloads to the new history; the cap is preserved |
| Publish.SendQuiz | bot.py:46-115 | a model call that raises leaves the attempt with history and file untouched and nothing returned; otherwise the history changes only when the send succeeded; a history within the cap stays within it |
| Publish.RunSendsPrepared | bot.py:87-111 | a sendable reply with a successful send and save ends in `Sent` with the correct option, the question recorded, and the new history written |
| Publish.SaveFailureKeepsQuestion | bot.py:101-115 | for every sendable reply, a failed write returns `False` with the question recorded; after a failed dump the next load gives the empty history, after a failed open it sees the old file |
| Publish.FalseWithRecordedQuestion | bot.py:101-115 | an empty history and quiz "Q" with a failed dump return `False` with ["Q"] in memory and the file cut off |
| Publish.BackendFailureRejected | bot.py:63-74 | a non-200 backend reply cleans to "", fails to decode, returns `False`, and leaves the history and the file alone |
| Publish.MissingKeyRaises | bot.py:76-78 | a missing `question` or `options` raises before any send, with the history and the file untouched |
| Publish.BadIndexRejected | bot.py:79-85 | an answer index outside the options, a defaulted 0 with no options included, returns `False` before any send with the history unchanged |
| Scenarios.FencedReplySent | bot.py:65-111 | the fenced reply for question "Q" with options a, b, c and index 1 is sent with answer "b", and "Q" is recorded |
| Scenarios.IndexPastOptionsRefused | bot.py:82-85 | index 5 with two options is refused as out of range (5, 2) with `False` and no history change |
| Scenarios.NonJsonRefused | bot.py:69-74 | the reply "sorry, I can't help" fails to decode, and the failure carries that text unchanged |

## Left out

- The HTTP call in `gemini.py` (request building, headers, JSON response access). The model is a parameter `model: string -> Option<string>`. `None` stands for any exception the call raises. Of the returned text, only the single-space reply on a non-200 status is modelled.
- The JSON decoder and encoder (`json.loads`, `json.load`, `json.dump`). They are library code. Decoding is a parameter from cleaned text to `Option<Fields>`. The load result comes in as `Option<seq<string>>`. The save is a `SaveStep`. A complete write holds the new history. A cut-off write is taken not to decode, because it lacks the array's closing bracket.
- The Telegram client, the dispatcher and the `/start`, `/quiz` and `/status` handlers. They are transport. The poll send is a success flag.
- The scheduler loop and its sleeps. This is asynchronous plumbing. `Returned() == None` marks the exception that the scheduler's handler catches.
- Concurrent runs of the scheduler and `/quiz` on the shared list. The code has no lock, and every attempt is modelled as running alone.
- Logging, including the log line that reads the correct option's text. That text is returned in `Sent` and `SaveFailed` instead.
- The "3–6 options" rule and the length limit. They appear only in the prompt text, and the code never checks them.
- Python's dynamic typing failures, such as a non-integer `correct_option_id`, `options` that is not a list, or a decoded value that is not an object. `Fields` gives each key a static type.
- Publish.SendQuiz: beyond the raising model call, it states only the history-change and cap facts. The full contract of an attempt is stated on `Publish.Run`, to which it hands the model's reply.

=== FILE: decimal.dfy ===
/** Decimal rendering of a non-negative integer, as `str(n)` and the
    f-string `{n}` produce it. */
module Decimal {

  predicate IsDigit(c: char)
  {
    '0' <= c <= '9'
  }

  predicate AllDigits(s: string)
  {
    forall i :: 0 <= i < |s| ==> IsDigit(s[i])
  }

  function DigitChar(d: nat): (c: char)
    requires d < 10
  {
    (48 + d) as char
  }

  /** The number a string of decimal digits denotes, most significant digit first. */
  function DecimalValue(s: string): (n: nat)
    requires AllDigits(s)
  {
    if |s| == 0 then 0
    else 10 * DecimalValue(s[..|s| - 1]) + ((s[|s| - 1] as int) - 48)
  }

  function NatToString(n: nat): (s: string)
    ensures |s| > 0 && AllDigits(s)
    ensures DecimalValue(s) == n
    ensures |s| > 1 ==> s[0] != '0'
  {
    if n < 10 then [DigitChar(n)]
    else
      var h := NatToString(n / 10);
      var s := h + [DigitChar(n % 10)];
      assert s[..|s| - 1] == h;
      s
  }
}

=== FILE: extraction.dfy ===
/** Reading the quiz out of the decoded JSON object, and the answer-index
    check that decides whether it may be sent. */
module Extraction {
  import opened Wrappers

  /** The decoded JSON object, reduced to the four keys `send_quiz` reads; a
      key the object lacks is `None`. */
  datatype Fields = Fields(
    question: Option<string>,
    options: Option<seq<string>>,
    correctOptionId: Option<int>,
    explanation: Option<string>)

  /** A quiz as it is handed to the poll. */
  datatype Quiz = Quiz(
    question: string,
    options: seq<string>,
    correctOptionId: int,
    explanation: string)

  /** `question` and `options` are read by subscription, so a missing one
      raises `KeyError` naming it (`question` is read first);
      `correct_option_id` and `explanation` are read with `get` and fall
      back to 0 and the empty string. */
  function Extract(f: Fields): (r: Result<Quiz, string>)
    ensures r.Failure? <==> f.question.None? || f.options.None?
    ensures r.Failure? ==> r.error == (if f.question.None? then "question" else "options")
    ensures r.Success? ==> r.value.question == f.question.value && r.value.options == f.options.value
    ensures r.Success? && f.correctOptionId.Some? ==> r.value.correctOptionId == f.correctOptionId.value
    ensures r.Success? && f.correctOptionId.None? ==> r.value.correctOptionId == 0
    ensures r.Success? && f.explanation.Some? ==> r.value.explanation == f.explanation.value
    ensures r.Success? && f.explanation.None? ==> r.value.explanation == ""
  {
    if f.question.None? then Failure("question")
    else if f.options.None? then Failure("options")
    else
      var id := match f.correctOptionId case Some(i) => i case None => 0;
      var explanation := match f.explanation case Some(e) => e case None => "";
      Success(Quiz(f.question.value, f.options.value, id, explanation))
  }

  /** The object a quiz would be written as, with all four keys. */
  function Fill(q: Quiz): (f: Fields)
  {
    Fields(Some(q.question), Some(q.options), Some(q.correctOptionId), Some(q.explanation))
  }

  /** A quiz written with all four keys reads back unchanged. */
  lemma {:induction false} ExtractFill(q: Quiz)
    ensures Extract(Fill(q)) == Success(q)
  {
  }

  /** Each optional key falls back to its default on its own, whether or
      not the other one is present; the required keys are kept. */
  lemma {:induction false} ExtractDefaults(
    question: string, options: seq<string>, id: Option<int>, explanation: Option<string>)
    ensures var r := Extract(Fields(Some(question), Some(options), id, explanation));
      && r.Success?
      && r.value.question == question && r.value.options == options
      && r.value.correctOptionId == (if id.Some? then id.value else 0)
      && r.value.explanation == (if explanation.Some? then explanation.value else "")
  {
  }

  /** `0 <= correct_option_id < len(options)`. */
  predicate AnswerIndexValid(q: Quiz)
  {
    0 <= q.correctOptionId < |q.options|
  }

  /** A quiz without options is always refused. */
  lemma {:induction false} NoOptionsInvalid(q: Quiz)
    requires |q.options| == 0
    ensures !AnswerIndexValid(q)
  {
  }
}

=== FILE: history.dfy ===
/** The list of already asked questions (`all_quest` in bot.py): loaded once,
    rendered into the prompt, and extended after every sent quiz with the
    oldest entry evicted beyond the cap. */
module History {
  import opened Wrappers
  import opened Infix
  import Decimal

  /** `MAX_QUESTIONS`: the cap on the number of remembered questions. */
  const MaxQuestions: nat := 50

  /** Start-up load: the stored list when the file could be read and decoded,
      otherwise the empty list. `stored` is `None` when opening or decoding
      `questions.json` raised. */
  function LoadOrEmpty(stored: Option<seq<string>>): (h: seq<string>)
    ensures stored.None? ==> h == []
    ensures stored.Some? ==> h == stored.value
  {
    match stored
    case None => []
    case Some(qs) => qs
  }

  /** The line `"{i}. {q}. "` for question `q` at 1-based position `i`. */
  function Entry(i: nat, q: string): (e: string)
  {
    Decimal.NatToString(i) + ". " + q + ". "
  }

  /** The numbered listing of the whole history, oldest question first. */
  function Render(h: seq<string>): (s: string)
  {
    if |h| == 0 then "" else Render(h[..|h| - 1]) + Entry(|h|, h[|h| - 1])
  }

  /** The rendering loop of `send_quiz`: a running counter from 1 and an
      accumulator extended once per question. */
  method RenderHistory(h: seq<string>) returns (s: string)
    ensures s == Render(h)
  {
    s := "";
    var ind := 1;
    for k := 0 to |h|
      invariant ind == k + 1
      invariant s == Render(h[..k])
    {
      assert h[..k + 1][..k] == h[..k];
      s := s + Entry(ind, h[k]);
      ind := ind + 1;
    }
    assert h[..|h|] == h;
  }

  /** The listing is empty exactly when the history is. */
  lemma {:induction false} RenderEmptyIff(h: seq<string>)
    ensures Render(h) == "" <==> |h| == 0
  {
    if |h| > 0 {
      var e := Entry(|h|, h[|h| - 1]);
      assert |e| > 0;
      assert |Render(h)| >= |e|;
    }
  }

  /** Two remembered questions render as `"1. A. 2. B. "`. */
  lemma RenderTwo()
    ensures Render(["A", "B"]) == "1. A. 2. B. "
  {
    assert ["A", "B"][..1] == ["A"];
    assert ["A"][..0] == [];
    assert Decimal.NatToString(1) == "1";
    assert Decimal.NatToString(2) == "2";
  }

  /** Every remembered question appears in the listing, numbered by its
      1-based position. */
  lemma {:induction false} RenderListsEvery(h: seq<string>, i: nat)
    requires i < |h|
    ensures IsInfix(Entry(i + 1, h[i]), Render(h))
    ensures Render(h) != ""
    decreases |h|
  {
    var e := Entry(i + 1, h[i]);
    var pre := Render(h[..|h| - 1]);
    var last := Entry(|h|, h[|h| - 1]);
    assert Render(h) == pre + last;
    if i == |h| - 1 {
      assert Render(h)[|pre|..|pre| + |e|] == e;
      assert OccursAt(Render(h), e, |pre|);
    } else {
      assert h[..|h| - 1][i] == h[i];
      RenderListsEvery(h[..|h| - 1], i);
      assert Render(h)[..|pre|] == pre;
      InfixTransitive(e, pre, Render(h)) by {
        assert OccursAt(Render(h), pre, 0);
      }
    }
  }

  /** One successful send: append the question, then drop the front entry
      when the list has grown past the cap. */
  function Record(h: seq<string>, q: string): (r: seq<string>)
    ensures |r| > 0 && r[|r| - 1] == q
    ensures |h| <= MaxQuestions ==> |r| == if |h| + 1 <= MaxQuestions then |h| + 1 else MaxQuestions
    ensures |h| >= MaxQuestions ==> |r| == |h|
    ensures r[..|r| - 1] == h[|h| + 1 - |r|..]
  {
    var appended := h + [q];
    if |appended| > MaxQuestions then appended[1..] else appended
  }

  /** The question is simply appended exactly when the list is below the cap;
      from the cap on, the front entry is the one dropped and the others keep
      their order. */
  lemma {:induction false} RecordEvictsOldestIff(h: seq<string>, q: string)
    ensures Record(h, q) == h + [q] <==> |h| < MaxQuestions
    ensures |h| >= MaxQuestions ==> |h| > 0 && Record(h, q) == h[1..] + [q]
  {
    if |h| >= MaxQuestions {
      assert (h + [q])[1..] == h[1..] + [q];
      assert |Record(h, q)| == |h| < |h + [q]|;
    }
  }

  /** The last `MaxQuestions` entries of `s`, or all of them. */
  function Window(s: seq<string>): (w: seq<string>)
  {
    if |s| > MaxQuestions then s[|s| - MaxQuestions..] else s
  }

  /** Successive sends, oldest first. */
  function RecordAll(h: seq<string>, qs: seq<string>): (r: seq<string>)
    decreases |qs|
  {
    if |qs| == 0 then h else RecordAll(Record(h, qs[0]), qs[1..])
  }

  /** From a history within the cap, any run of sends leaves exactly the
      most recent `MaxQuestions` questions, in the order they were asked. */
  lemma {:induction false} RecordAllKeepsWindow(h: seq<string>, qs: seq<string>)
    requires |h| <= MaxQuestions
    ensures RecordAll(h, qs) == Window(h + qs)
    decreases |qs|
  {
    if |qs| == 0 {
      assert h + qs == h;
    } else {
      var h1 := Record(h, qs[0]);
      RecordAllKeepsWindow(h1, qs[1..]);
      assert h + qs == (h + [qs[0]]) + qs[1..];
      var s := h + qs;
      var s1 := h1 + qs[1..];
      if |h| + 1 > MaxQuestions {
        assert h1 == (h + [qs[0]])[1..];
        assert s1 == s[1..];
        assert |s| == MaxQuestions + |qs|;
        assert Window(s) == s[|qs|..];
        if |qs| > 1 {
          assert Window(s1) == s1[|qs| - 1..];
          assert s1[|qs| - 1..] == s[|qs|..];
        } else {
          assert Window(s1) == s1;
        }
      } else {
        assert s1 == s;
      }
    }
  }

  /** A loaded history already longer than the cap is never shortened: each
      send evicts exactly one entry, so its length stays where it was. */
  lemma {:induction false} RecordAllKeepsOverlongLength(h: seq<string>, qs: seq<string>)
    requires |h| > MaxQuestions
    ensures |RecordAll(h, qs)| == |h|
    decreases |qs|
  {
    if |qs| > 0 {
      RecordAllKeepsOverlongLength(Record(h, qs[0]), qs[1..]);
    }
  }
}

=== FILE: infix.dfy ===
/** Substring occurrence, as Python's `p in s` sees it. */
module Infix {

  /** `p` occurs in `s` starting at index `i`. */
  predicate OccursAt(s: string, p: string, i: int)
  {
    0 <= i && i + |p| <= |s| && s[i..i + |p|] == p
  }

  /** `p` is a substring of `s`. */
  predicate IsInfix(p: string, s: string)
  {
    exists i :: 0 <= i <= |s| - |p| && OccursAt(s, p, i)
  }

  /** An occurrence in a slice is an occurrence in the whole string. */
  lemma {:induction false} InfixOfSlice(p: string, s: string, lo: int, hi: int)
    requires 0 <= lo <= hi <= |s|
    requires IsInfix(p, s[lo..hi])
    ensures IsInfix(p, s)
  {
    var i :| 0 <= i <= hi - lo - |p| && OccursAt(s[lo..hi], p, i);
    forall k | 0 <= k < |p|
      ensures s[lo + i..lo + i + |p|][k] == p[k]
    {
      assert p[k] == s[lo..hi][i..i + |p|][k];
    }
    assert OccursAt(s, p, lo + i);
  }

  /** Being a substring is transitive. */
  lemma {:induction false} InfixTransitive(p: string, q: string, s: string)
    requires IsInfix(p, q)
    requires IsInfix(q, s)
    ensures IsInfix(p, s)
  {
    var j :| 0 <= j <= |s| - |q| && OccursAt(s, q, j);
    assert q == s[j..j + |q|];
    InfixOfSlice(p, s, j, j + |q|);
  }

  /** If some character of `p` never appears in `s`, then `p` does not occur in `s`. */
  lemma {:induction false} MissingCharNoInfix(p: string, s: string, d: int)
    requires 0 <= d < |p|
    requires p[d] !in s
    ensures !IsInfix(p, s)
  {
    forall i | 0 <= i <= |s| - |p|
      ensures !OccursAt(s, p, i)
    {
      assert s[i..i + |p|][d] == s[i + d];
    }
  }

  /** Occurrences in a suffix are the occurrences in the whole string, shifted. */
  lemma {:induction false} OccursInSuffix(s: string, k: int, p: string, i: int)
    requires 0 <= k <= |s|
    requires 0 <= i
    ensures OccursAt(s[k..], p, i) <==> OccursAt(s, p, i + k)
  {
    if i + |p| <= |s| - k {
      assert s[k..][i..i + |p|] == s[i + k..i + k + |p|];
    }
  }

  /** An occurrence at the start of a prefix is an occurrence at the start of the whole. */
  lemma {:induction false} OccursInPrefix(a: string, b: string, p: string)
    requires |p| <= |a|
    ensures OccursAt(a + b, p, 0) <==> OccursAt(a, p, 0)
  {
    assert (a + b)[..|p|] == a[..|p|];
  }

  /** The middle part of a concatenation is a substring of it. */
  lemma {:induction false} InfixInMiddle(a: string, m: string, b: string)
    ensures IsInfix(m, a + m + b)
  {
    assert (a + m + b)[|a|..|a| + |m|] == m;
    assert OccursAt(a + m + b, m, |a|);
  }

  /** A string shorter than `p` cannot contain it. */
  lemma {:induction false} ShortNoInfix(p: string, s: string)
    requires |s| < |p|
    ensures !IsInfix(p, s)
  {
  }
}

=== FILE: prompt.dfy ===
/** The generation prompt: the fixed template `basic_prompt` of bot.py, and
    its "do not repeat" clause swapped for the numbered history when there is
    one. */
module Prompt {
  import opened Infix
  import opened Replace
  import History

  // The template, one constant per source line; a long line is written as
  // several shorter literals joined with `+`, which spell the same text.

  const Intro: string :=
    "Сгенерируй один новый вопрос по "
    + "программированию для викторины. "

  /** The clause that is replaced; the source line adds one space after it. */
  const NoRepeatClause: string :=
    "Вопрос не должен "
    + "повторяться с предыдущими."

  const NoRepeatLine: string := NoRepeatClause + " "

  const PlainJsonDemand: string :=
    "Ответ должен быть в формате ЧИСТОГО "
    + "JSON без комментариев, кавычек вне "
    + "объекта, "
  const NoMarkdownDemand: string :=
    "без Markdown, без ```json, без "
    + "текста до или после. "
  const FormatLead: string :=
    "Формат строго такой: "
  const OpenBrace: string :=
    "{"
  const QuestionKey: string :=
    "\"question\": \"текст вопроса\", "
  const OptionsKey: string :=
    "\"options\": [\"вариант1\", \"вариант2\", "
    + "\"вариант3\"], "
  const AnswerKey: string :=
    "\"correct_option_id\": 0, "
  const ExplanationKey: string :=
    "\"explanation\": \"подробное объяснение "
    + "правильного ответа\""
  const CloseBrace: string :=
    "}. "
  const IndexNote: string :=
    "correct_option_id - это индекс "
    + "правильного ответа в массиве options "
    + "(начиная с 0). "
  const OptionCountNote: string :=
    "Вариантов ответа должно быть 3–6. "
  const OnlyJsonNote: string :=
    "Пиши только JSON. Никаких "
    + "объяснений. Ограничение в длину 1000 "
    + "символов"


  /** The format instructions: the lines after the "do not repeat" line. */
  const Instructions: string :=
    PlainJsonDemand
    + NoMarkdownDemand
    + FormatLead
    + OpenBrace
    + QuestionKey
    + OptionsKey
    + AnswerKey
    + ExplanationKey
    + CloseBrace
    + IndexNote
    + OptionCountNote
    + OnlyJsonNote

  /** `basic_prompt`: the lines above, concatenated. */
  const Template: string := Intro + NoRepeatLine + Instructions

  /** Everything after the replaced clause. */
  const Rules: string := " " + Instructions

  /** The clause that takes the place of `NoRepeatClause` when questions
      have been asked before. */
  function HistoryClause(rendered: string): (clause: string)
  {
    "Вопрос не должен "
    + "быть таким же как эти: "
    + rendered + "."
  }

  /** The prompt for a rendered history. The template is returned as it is
      for an empty rendering; otherwise its single "do not repeat" clause is
      replaced and the text around it is kept. */
  function BuildPrompt(rendered: string): (prompt: string)
    ensures rendered == "" ==> prompt == Template
    ensures rendered != "" ==> prompt == Intro + HistoryClause(rendered) + Rules
  {
    if rendered == "" then Template
    else
      ReplaceInTemplate(HistoryClause(rendered));
      ReplaceAll(Template, NoRepeatClause, HistoryClause(rendered))
  }

  lemma TemplateSplits()
    ensures Template == Intro + NoRepeatClause + Rules
  {
    Regroup(Intro, NoRepeatClause, Instructions);
  }

  lemma {:induction false} Regroup(a: string, b: string, c: string)
    ensures a + (b + " ") + c == a + b + (" " + c)
  {
  }

  // The replaced clause contains the letter 'щ' ("предыдущими"); none of
  // the instruction lines after it does. Each fact below is checked by
  // reading one line letter by letter, and `RulesLackShcha` combines them.
  lemma PlainJsonDemandLacksShcha() ensures 'щ' !in PlainJsonDemand {}
  lemma NoMarkdownDemandLacksShcha() ensures 'щ' !in NoMarkdownDemand {}
  lemma FormatLeadLacksShcha() ensures 'щ' !in FormatLead {}
  lemma OpenBraceLacksShcha() ensures 'щ' !in OpenBrace {}
  lemma QuestionKeyLacksShcha() ensures 'щ' !in QuestionKey {}
  lemma OptionsKeyLacksShcha() ensures 'щ' !in OptionsKey {}
  lemma AnswerKeyLacksShcha() ensures 'щ' !in AnswerKey {}
  lemma ExplanationKeyLacksShcha() ensures 'щ' !in ExplanationKey {}
  lemma CloseBraceLacksShcha() ensures 'щ' !in CloseBrace {}
  lemma IndexNoteLacksShcha() ensures 'щ' !in IndexNote {}
  lemma OptionCountNoteLacksShcha() ensures 'щ' !in OptionCountNote {}
  lemma OnlyJsonNoteLacksShcha() ensures 'щ' !in OnlyJsonNote {}

  lemma RulesLackShcha()
    ensures 'щ' !in Rules
  {
    PlainJsonDemandLacksShcha();
    NoMarkdownDemandLacksShcha();
    FormatLeadLacksShcha();
    OpenBraceLacksShcha();
    QuestionKeyLacksShcha();
    OptionsKeyLacksShcha();
    AnswerKeyLacksShcha();
    ExplanationKeyLacksShcha();
    CloseBraceLacksShcha();
    IndexNoteLacksShcha();
    OptionCountNoteLacksShcha();
    OnlyJsonNoteLacksShcha();
  }

  lemma ClauseStartsWithVe()
    ensures NoRepeatClause[0] == 'В'
  {
  }

  lemma IntroLacksVe()
    ensures 'В' !in Intro
  {
  }

  lemma ClauseHasShcha()
    ensures NoRepeatClause[38] == 'щ'
  {
  }

  /** The clause occurs in the template exactly once: no occurrence can
      start inside the intro, which lacks the clause's first letter, and none
      lies in the rest, which lacks its letter 'щ'. */
  lemma {:induction false} ReplaceInTemplate(n: string)
    ensures ReplaceAll(Template, NoRepeatClause, n) == Intro + n + Rules
  {
    TemplateSplits();
    ClauseStartsWithVe();
    IntroLacksVe();
    ClauseHasShcha();
    RulesLackShcha();
    ReplaceSingle(Intro, NoRepeatClause, Rules, n, 38);
  }

  lemma {:induction false} ClausesDiffer(rendered: string)
    ensures HistoryClause(rendered)[17] != NoRepeatClause[17]
  {
    assert HistoryClause(rendered)[17] == 'б';
    assert NoRepeatClause[17] == 'п';
  }

  /** Concatenations that differ in the middle part differ. */
  lemma {:induction false} DifferInMiddle(a: string, x: string, y: string, b: string, k: nat)
    requires k < |x| && k < |y| && x[k] != y[k]
    ensures a + x + b != a + y + b
  {
    assert (a + x + b)[|a| + k] == x[k];
    assert (a + y + b)[|a| + k] == y[k];
  }

  /** A prompt built from a non-empty rendering differs from the template. */
  lemma {:induction false} PromptDiffersFromTemplate(rendered: string)
    requires rendered != ""
    ensures BuildPrompt(rendered) != Template
  {
    TemplateSplits();
    ClausesDiffer(rendered);
    DifferInMiddle(Intro, HistoryClause(rendered), NoRepeatClause, Rules, 17);
  }

  /** A non-empty rendering appears verbatim in its prompt. */
  lemma {:induction false} PromptContainsRendering(rendered: string)
    requires rendered != ""
    ensures IsInfix(rendered, BuildPrompt(rendered))
  {
    var clause := HistoryClause(rendered);
    InfixInMiddle("Вопрос не должен " + "быть таким же как эти: ", rendered, ".");
    InfixInMiddle(Intro, clause, Rules);
    InfixTransitive(rendered, clause, BuildPrompt(rendered));
  }

  /** The prompt is the bare template exactly when no question has been
      asked before. */
  lemma {:induction false} PromptUnchangedIff(h: seq<string>)
    ensures BuildPrompt(History.Render(h)) == Template <==> |h| == 0
  {
    History.RenderEmptyIff(h);
    if |h| > 0 {
      PromptDiffersFromTemplate(History.Render(h));
    }
  }

  /** Whatever occurs in a non-empty rendering occurs in its prompt. */
  lemma {:induction false} PromptKeepsInfix(e: string, rendered: string)
    requires rendered != ""
    requires IsInfix(e, rendered)
    ensures IsInfix(e, BuildPrompt(rendered))
  {
    PromptContainsRendering(rendered);
    InfixTransitive(e, rendered, BuildPrompt(rendered));
  }

  /** With a non-empty history, every earlier question appears in the prompt
      under its number. */
  lemma {:induction false} PromptListsHistory(h: seq<string>, i: nat)
    requires i < |h|
    ensures IsInfix(History.Entry(i + 1, h[i]), BuildPrompt(History.Render(h)))
  {
    History.RenderListsEvery(h, i);
    PromptKeepsInfix(History.Entry(i + 1, h[i]), History.Render(h));
  }
}

=== FILE: publish.dfy ===
/** One run of `send_quiz`: build the prompt from the history, ask the model,
    clean and decode its reply, read and check the quiz, send the poll, and
    record the question. The model, the JSON decoder, the poll send and the
    file write are outside the model: they come in as a function from prompt
    to reply (`None` when the call raised), a function from text to decoded
    object, a success flag for the send, and the way the write went. */
module Publish {
  import opened Wrappers
  import opened Extraction
  import History
  import Prompt
  import Response

  /** How an attempt ends. */
  datatype Outcome =
    | Sent(answer: string)                  // the poll went out and the history was saved
    | NotJson(text: string)                 // the cleaned reply did not decode
    | AnswerOutOfRange(id: int, count: nat) // the answer index is outside the options
    | SendFailed                            // sending the poll raised
    | SaveFailed(answer: string)            // the poll went out, writing the file raised
    | KeyMissing(key: string)               // `question` or `options` is absent
    | ModelFailed                           // asking the model raised
  {
    /** What `send_quiz` gives its caller: `True` only after a send and a
        save that both succeeded, nothing at all (the exception escapes) for
        a missing key or a model call that raised, and `False` for every
        other stop. */
    function Returned(): (r: Option<bool>)
      ensures r == Some(true) <==> Sent?
      ensures r == None <==> KeyMissing? || ModelFailed?
      ensures r == Some(false) <==> NotJson? || AnswerOutOfRange? || SendFailed? || SaveFailed?
    {
      match this
      case Sent(_) => Some(true)
      case KeyMissing(_) => None
      case ModelFailed => None
      case _ => Some(false)
    }

    /** The poll was sent, so the question entered the history. */
    predicate Recorded()
    {
      Sent? || SaveFailed?
    }
  }

  /** How writing `questions.json` goes once the poll is out. Opening the file
      for writing empties it, so a dump that raises leaves it cut off. */
  datatype SaveStep =
    | Saved       // opened and the whole list dumped
    | OpenFailed  // opening raised; the file is as it was
    | DumpFailed  // opened (and so emptied), then the dump raised part way

  /** What an attempt did to `questions.json`. */
  datatype FileEffect =
    | Untouched
    | Written(list: seq<string>)
    | CutOff      // empty or an unfinished JSON array, which does not decode

  /** The end state of an attempt: its outcome, the in-memory history after
      it, and what became of the file. */
  datatype Attempt = Attempt(outcome: Outcome, history: seq<string>, file: FileEffect)

  /** What the next start-up load decodes from the file, given what it
      decoded from the file before the attempt. */
  function NextStored(file: FileEffect, before: Option<seq<string>>): (stored: Option<seq<string>>)
  {
    match file
    case Untouched => before
    case Written(list) => Some(list)
    case CutOff => None
  }

  /** The prompt sent to the model for history `h`. */
  function PromptFor(h: seq<string>): (prompt: string)
  {
    Prompt.BuildPrompt(History.Render(h))
  }

  /** The decoded reply has both required keys and a valid answer index. */
  predicate Sendable(decoded: Option<Fields>)
  {
    && decoded.Some?
    && Extract(decoded.value).Success?
    && AnswerIndexValid(Extract(decoded.value).value)
  }

  /** Everything before the send, given the cleaned reply `text` and what
      the decoder made of it: the quiz to send, or the outcome that stops the
      attempt first. A reply that does not decode stops with its cleaned text,
      a missing key stops with the key's name, and an index outside the
      options stops with the index and the number of options. */
  function Prepare(text: string, decoded: Option<Fields>): (r: Result<Quiz, Outcome>)
    ensures r.Success? <==> Sendable(decoded)
    ensures r.Success? ==> r.value == Extract(decoded.value).value && AnswerIndexValid(r.value)
    ensures decoded.None? ==> r == Failure(NotJson(text))
    ensures decoded.Some? && Extract(decoded.value).Failure? ==>
      r == Failure(KeyMissing(Extract(decoded.value).error))
    ensures decoded.Some? && Extract(decoded.value).Success? && !AnswerIndexValid(Extract(decoded.value).value) ==>
      var quiz := Extract(decoded.value).value;
      r == Failure(AnswerOutOfRange(quiz.correctOptionId, |quiz.options|))
    ensures r.Failure? ==> !r.error.Recorded() && r.error != SendFailed
  {
    match decoded
    case None => Failure(NotJson(text))
    case Some(fields) =>
      match Extract(fields)
      case Failure(key) => Failure(KeyMissing(key))
      case Success(quiz) =>
        if AnswerIndexValid(quiz) then Success(quiz)
        else Failure(AnswerOutOfRange(quiz.correctOptionId, |quiz.options|))
  }

  /** A whole attempt on history `h`: the model is asked with the prompt for
      `h`, and the rest of the attempt runs on its reply. The call to the
      model is outside every `try`, so when it raises the exception leaves
      the attempt before anything has changed. */
  function SendQuiz(
    h: seq<string>,
    model: string -> Option<string>,
    parse: string -> Option<Fields>,
    sendOk: bool,
    save: SaveStep
  ): (a: Attempt)
    ensures model(PromptFor(h)).None? ==> a == Attempt(ModelFailed, h, Untouched)
    ensures model(PromptFor(h)).None? ==> a.outcome.Returned() == None
    ensures a.history != h ==> sendOk && model(PromptFor(h)).Some?
    ensures |h| <= History.MaxQuestions ==> |a.history| <= History.MaxQuestions
  {
    match model(PromptFor(h))
    case None => Attempt(ModelFailed, h, Untouched)
    case Some(reply) => Run(h, reply, parse, sendOk, save)
  }

  /** What the decoder makes of the cleaned reply. */
  function Decoded(reply: string, parse: string -> Option<Fields>): (decoded: Option<Fields>)
  {
    parse(Response.Clean(reply))
  }

  /** The rest of the attempt once the reply has been read. A stop before the
      send changes nothing. A send that raises is caught and changes nothing.
      A send that succeeds records the question whatever then happens to the
      file; the attempt succeeds only when the file is written too, and then
      the file holds the new history. */
  function Finish(h: seq<string>, prepared: Result<Quiz, Outcome>, sendOk: bool, save: SaveStep): (a: Attempt)
    requires prepared.Success? ==> AnswerIndexValid(prepared.value)
    requires prepared.Failure? ==> !prepared.error.Recorded()
    ensures a.outcome.Sent? <==> prepared.Success? && sendOk && save == Saved
    ensures prepared.Failure? ==> a == Attempt(prepared.error, h, Untouched)
    ensures prepared.Success? && !sendOk ==> a == Attempt(SendFailed, h, Untouched)
    ensures prepared.Success? && sendOk ==>
      var quiz := prepared.value;
      && a.outcome.Recorded()
      && a.outcome.answer == quiz.options[quiz.correctOptionId]
      && a.history == History.Record(h, quiz.question)
    ensures !a.outcome.Recorded() ==> a.history == h && a.file == Untouched
    ensures a.outcome.Sent? <==> a.file == Written(a.history)
    ensures a.outcome.SaveFailed? ==> (a.file == CutOff <==> save == DumpFailed)
    ensures a.outcome.SaveFailed? ==> (a.file == Untouched <==> save == OpenFailed)
    ensures |h| <= History.MaxQuestions ==> |a.history| <= History.MaxQuestions
  {
    match prepared
    case Failure(stop) => Attempt(stop, h, Untouched)
    case Success(quiz) =>
      if !sendOk then Attempt(SendFailed, h, Untouched)
      else
        var answer := quiz.options[quiz.correctOptionId];
        var updated := History.Record(h, quiz.question);
        match save
        case Saved => Attempt(Sent(answer), updated, Written(updated))
        case OpenFailed => Attempt(SaveFailed(answer), updated, Untouched)
        case DumpFailed => Attempt(SaveFailed(answer), updated, CutOff)
  }

  /** The attempt after the model has answered `reply`, with `sendOk` saying
      whether sending the poll succeeded and `save` how writing
      `questions.json` went. */
  function Run(
    h: seq<string>,
    reply: string,
    parse: string -> Option<Fields>,
    sendOk: bool,
    save: SaveStep
  ): (a: Attempt)
    ensures a.outcome.Returned() == Some(true) <==> Sendable(Decoded(reply, parse)) && sendOk && save == Saved
    ensures a.outcome.Returned() == None <==>
      Decoded(reply, parse).Some? && Extract(Decoded(reply, parse).value).Failure?
    ensures Decoded(reply, parse).None? ==>
      a == Attempt(NotJson(Response.Clean(reply)), h, Untouched)
    ensures Sendable(Decoded(reply, parse)) && !sendOk ==> a == Attempt(SendFailed, h, Untouched)
    ensures Sendable(Decoded(reply, parse)) && sendOk ==>
      var quiz := Extract(Decoded(reply, parse).value).value;
      && a.outcome.Recorded()
      && a.outcome.answer == quiz.options[quiz.correctOptionId]
      && a.history == History.Record(h, quiz.question)
    ensures a.outcome.Recorded() ==> Sendable(Decoded(reply, parse)) && sendOk
    ensures !a.outcome.Recorded() ==> a.history == h && a.file == Untouched
    ensures a.outcome.Sent? <==> a.file == Written(a.history)
    ensures a.file.Written? ==> History.LoadOrEmpty(Some(a.file.list)) == a.history
    ensures |h| <= History.MaxQuestions ==> |a.history| <= History.MaxQuestions
  {
    var decoded := Decoded(reply, parse);
    FinishPrepared(h, Response.Clean(reply), decoded, sendOk, save);
    Finish(h, Prepare(Response.Clean(reply), decoded), sendOk, save)
  }

  /** The contract of `Run`, for any cleaned text and any decoding of it. */
  lemma {:induction false} FinishPrepared(h: seq<string>, text: string, decoded: Option<Fields>, sendOk: bool, save: SaveStep)
    ensures var a := Finish(h, Prepare(text, decoded), sendOk, save);
      && (a.outcome.Returned() == Some(true) <==> Sendable(decoded) && sendOk && save == Saved)
      && (a.outcome.Returned() == None <==> decoded.Some? && Extract(decoded.value).Failure?)
      && (decoded.None? ==> a == Attempt(NotJson(text), h, Untouched))
      && (Sendable(decoded) && !sendOk ==> a == Attempt(SendFailed, h, Untouched))
      && (Sendable(decoded) && sendOk ==>
        var quiz := Extract(decoded.value).value;
        && a.outcome.Recorded()
        && a.outcome.answer == quiz.options[quiz.correctOptionId]
        && a.history == History.Record(h, quiz.question))
      && (a.outcome.Recorded() ==> Sendable(decoded) && sendOk)
      && (!a.outcome.Recorded() ==> a.history == h && a.file == Untouched)
      && (a.outcome.Sent? <==> a.file == Written(a.history))
      && (a.file.Written? ==> History.LoadOrEmpty(Some(a.file.list)) == a.history)
      && (|h| <= History.MaxQuestions ==> |a.history| <= History.MaxQuestions)
  {
  }

  /** A reply that yields a sendable quiz, with the send and the save both
      succeeding, ends in `Sent` with the quiz's correct option, the question
      recorded, and the new history written. */
  lemma {:induction false} RunSendsPrepared(h: seq<string>, reply: string, parse: string -> Option<Fields>, quiz: Quiz)
    requires Prepare(Response.Clean(reply), Decoded(reply, parse)) == Success(quiz)
    ensures 0 <= quiz.correctOptionId < |quiz.options|
    ensures var updated := History.Record(h, quiz.question);
      Run(h, reply, parse, true, Saved)
        == Attempt(Sent(quiz.options[quiz.correctOptionId]), updated, Written(updated))
  {
  }

  /** A `False` return does not mean the history is unchanged: when the file
      write fails after the send, the question has already been recorded. If
      the dump raised, the emptied file makes the next start-up load fall back
      to the empty history, whatever it held before; if opening raised, the
      next load sees the file as it was. */
  lemma {:induction false} SaveFailureKeepsQuestion(
    h: seq<string>, reply: string, parse: string -> Option<Fields>,
    save: SaveStep, before: Option<seq<string>>)
    requires Sendable(Decoded(reply, parse))
    requires save != Saved
    ensures var a := Run(h, reply, parse, true, save);
      && a.outcome.Returned() == Some(false)
      && a.history == History.Record(h, Extract(Decoded(reply, parse).value).value.question)
      && |a.history| > 0
      && (save == DumpFailed ==> History.LoadOrEmpty(NextStored(a.file, before)) == [])
      && (save == OpenFailed ==> NextStored(a.file, before) == before)
  {
    var a := Run(h, reply, parse, true, save);
    assert a.outcome.SaveFailed?;
  }

  /** The smallest case of the above: an empty history, a quiz "Q", and a
      failed write, which returns `False` with ["Q"] in memory. */
  lemma FalseWithRecordedQuestion()
    ensures var a := Run([], "{}", t => Some(Fields(Some("Q"), Some(["a"]), None, None)), true, DumpFailed);
      a.outcome.Returned() == Some(false) && a.history == ["Q"] && a.file == CutOff
  {
    assert History.Record([], "Q") == ["Q"];
  }

  /** When the backend answers with a non-200 status its reply is a single
      space, which cleans to the empty text; any JSON decoder refuses that,
      so the attempt returns `False` and nothing is recorded. */
  lemma {:induction false} BackendFailureRejected(
    h: seq<string>, status: int, content: string,
    parse: string -> Option<Fields>, sendOk: bool, save: SaveStep)
    requires status != 200
    requires parse("") == None
    ensures var a := Run(h, Response.BackendReply(status, content), parse, sendOk, save);
      a.outcome == NotJson("") && a.outcome.Returned() == Some(false) && a.history == h && a.file == Untouched
  {
    Response.FailureReplyCleansEmpty(status, content);
  }

  /** A missing `question` or `options` key raises instead of returning, and
      happens before anything is sent or recorded. */
  lemma {:induction false} MissingKeyRaises(
    h: seq<string>, reply: string, parse: string -> Option<Fields>, sendOk: bool, save: SaveStep)
    requires Decoded(reply, parse).Some?
    requires Decoded(reply, parse).value.question.None? || Decoded(reply, parse).value.options.None?
    ensures var a := Run(h, reply, parse, sendOk, save);
      a.outcome.KeyMissing? && a.outcome.Returned() == None && a.history == h && a.file == Untouched
  {
  }

  /** An answer index outside the options stops the attempt with `False`
      before the send; a missing index counts as 0, so an empty option list
      is always refused this way. */
  lemma {:induction false} BadIndexRejected(
    h: seq<string>, reply: string, parse: string -> Option<Fields>, sendOk: bool, save: SaveStep)
    requires Decoded(reply, parse).Some?
    requires var f := Decoded(reply, parse).value;
      && f.question.Some? && f.options.Some?
      && var id := if f.correctOptionId.Some? then f.correctOptionId.value else 0;
         !(0 <= id < |f.options.value|)
    ensures var a := Run(h, reply, parse, sendOk, save);
      a.outcome.AnswerOutOfRange? && a.outcome.Returned() == Some(false) && a.history == h
  {
  }
}

=== FILE: replace.dfy ===
/** Python's `str.replace(old, new)` with a non-empty `old`: occurrences are
    found left to right, never overlap, and the inserted text is not scanned
    again. */
module Replace {
  import opened Infix

  /** The text does not grow when `r` is no longer than `p`, and does not
      shrink when it is no shorter. */
  function ReplaceAll(s: string, p: string, r: string): (t: string)
    requires |p| > 0
    ensures |r| <= |p| ==> |t| <= |s|
    ensures |r| >= |p| ==> |t| >= |s|
    decreases |s|
  {
    if |s| < |p| then s
    else if s[..|p|] == p then r + ReplaceAll(s[|p|..], p, r)
    else [s[0]] + ReplaceAll(s[1..], p, r)
  }

  /** Replacing a substring that does not occur changes nothing. */
  lemma {:induction false} ReplaceAbsent(s: string, p: string, r: string)
    requires |p| > 0
    requires !IsInfix(p, s)
    ensures ReplaceAll(s, p, r) == s
    decreases |s|
  {
    if |s| >= |p| {
      assert !OccursAt(s, p, 0);
      ShiftNoInfix(s, p);
      ReplaceAbsent(s[1..], p, r);
    }
  }

  /** Dropping the first character cannot create an occurrence. */
  lemma {:induction false} ShiftNoInfix(s: string, p: string)
    requires |s| > 0
    ensures IsInfix(p, s[1..]) ==> IsInfix(p, s)
  {
    if IsInfix(p, s[1..]) {
      var i :| 0 <= i <= |s[1..]| - |p| && OccursAt(s[1..], p, i);
      OccursInSuffix(s, 1, p, i);
    }
  }

  /** Where no occurrence starts, the first character is copied. */
  lemma {:induction false} ReplaceMiss(s: string, p: string, r: string)
    requires |p| > 0 && |s| > 0
    requires !OccursAt(s, p, 0)
    ensures ReplaceAll(s, p, r) == [s[0]] + ReplaceAll(s[1..], p, r)
  {
    if |s| < |p| {
      assert ReplaceAll(s[1..], p, r) == s[1..];
    }
  }

  /** Where an occurrence starts, it is replaced and the scan resumes after it. */
  lemma {:induction false} ReplaceHit(s: string, p: string, r: string)
    requires |p| > 0
    requires OccursAt(s, p, 0)
    ensures ReplaceAll(s, p, r) == r + ReplaceAll(s[|p|..], p, r)
  {
  }

  /** A string that starts with `p` has that occurrence replaced first. */
  lemma {:induction false} ReplaceLeading(p: string, b: string, r: string)
    requires |p| > 0
    ensures ReplaceAll(p + b, p, r) == r + ReplaceAll(b, p, r)
  {
    assert (p + b)[..|p|] == p;
    assert (p + b)[|p|..] == b;
  }

  /** A prefix in which no occurrence of `p` starts is copied unchanged. */
  lemma {:induction false} ReplaceSkipsPrefix(a: string, t: string, p: string, r: string)
    requires |p| > 0
    requires forall i :: 0 <= i < |a| ==> !OccursAt(a + t, p, i)
    ensures ReplaceAll(a + t, p, r) == a + ReplaceAll(t, p, r)
    decreases |a|
  {
    if |a| > 0 {
      var s := a + t;
      assert !OccursAt(s, p, 0);
      ReplaceMiss(s, p, r);
      assert s[1..] == a[1..] + t;
      forall i | 0 <= i < |a[1..]|
        ensures !OccursAt(a[1..] + t, p, i)
      {
        assert !OccursAt(s, p, i + 1);
        OccursInSuffix(s, 1, p, i);
      }
      ReplaceSkipsPrefix(a[1..], t, p, r);
      assert a + ReplaceAll(t, p, r) == [a[0]] + (a[1..] + ReplaceAll(t, p, r));
    } else {
      assert a + t == t;
    }
  }

  /** Replacing in `a + p + b` touches exactly the middle `p` when no
      occurrence can start inside `a` (the first character of `p` is missing
      from `a`) and none lies in `b` (some character of `p` is missing from `b`). */
  lemma {:induction false} ReplaceSingle(a: string, p: string, b: string, r: string, d: int)
    requires 0 <= d < |p|
    requires p[0] !in a
    requires p[d] !in b
    ensures ReplaceAll(a + p + b, p, r) == a + r + b
  {
    var s := a + (p + b);
    assert a + p + b == s;
    forall i | 0 <= i < |a|
      ensures !OccursAt(s, p, i)
    {
      assert s[i] == a[i];
      if i + |p| <= |s| {
        assert s[i..i + |p|][0] == s[i];
      }
    }
    ReplaceSkipsPrefix(a, p + b, p, r);
    ReplaceLeading(p, b, r);
    MissingCharNoInfix(p, b, d);
    ReplaceAbsent(b, p, r);
  }

  /** An occurrence of `p` starts at the front of `a + [c] + b` exactly when
      one starts at the front of `a`, if `c` is not in `p`. */
  lemma {:induction false} SeparatorKeepsStart(a: string, c: char, b: string, p: string)
    requires c !in p
    ensures OccursAt(a + [c] + b, p, 0) <==> OccursAt(a, p, 0)
  {
    var s := a + [c] + b;
    if |p| <= |a| {
      assert s == a + ([c] + b);
      OccursInPrefix(a, [c] + b, p);
    } else if |p| <= |s| {
      assert s[..|p|][|a|] == c;
    }
  }

  /** A character that does not appear in `p` splits the scan: no occurrence
      can straddle it. */
  lemma {:induction false} ReplaceAroundSeparator(a: string, c: char, b: string, p: string, r: string)
    requires |p| > 0
    requires c !in p
    ensures ReplaceAll(a + [c] + b, p, r) == ReplaceAll(a, p, r) + [c] + ReplaceAll(b, p, r)
    decreases |a|
  {
    SeparatorKeepsStart(a, c, b, p);
    if |a| == 0 {
      SeparatorFirst(c, b, p, r);
      assert a + [c] + b == [c] + b;
    } else if OccursAt(a, p, 0) {
      ReplaceAroundSeparator(a[|p|..], c, b, p, r);
      SeparatorAfterHit(a, c, b, p, r);
    } else {
      ReplaceAroundSeparator(a[1..], c, b, p, r);
      SeparatorAfterMiss(a, c, b, p, r);
    }
  }

  /** The separator itself is copied. */
  lemma SeparatorFirst(c: char, b: string, p: string, r: string)
    requires |p| > 0
    requires c !in p
    ensures ReplaceAll([c] + b, p, r) == [] + [c] + ReplaceAll(b, p, r)
  {
    SeparatorKeepsStart([], c, b, p);
    assert [] + [c] + b == [c] + b;
    ReplaceMiss([c] + b, p, r);
    assert ([c] + b)[1..] == b;
  }

  /** The step of `ReplaceAroundSeparator` past an occurrence at the front. */
  lemma SeparatorAfterHit(a: string, c: char, b: string, p: string, r: string)
    requires |p| > 0
    requires c !in p
    requires OccursAt(a, p, 0)
    requires ReplaceAll(a[|p|..] + [c] + b, p, r) == ReplaceAll(a[|p|..], p, r) + [c] + ReplaceAll(b, p, r)
    ensures ReplaceAll(a + [c] + b, p, r) == ReplaceAll(a, p, r) + [c] + ReplaceAll(b, p, r)
  {
    var s := a + [c] + b;
    var x := ReplaceAll(a[|p|..], p, r);
    var t := ReplaceAll(b, p, r);
    SliceOfJoin(a, c, b, |p|);
    assert ReplaceAll(s, p, r) == r + (x + [c] + t) by {
      SeparatorKeepsStart(a, c, b, p);
      ReplaceHit(s, p, r);
    }
    assert ReplaceAll(a, p, r) == r + x by {
      ReplaceHit(a, p, r);
    }
    JoinAround(r, x, c, t);
  }

  /** The step of `ReplaceAroundSeparator` past a front character where no
      occurrence starts. */
  lemma SeparatorAfterMiss(a: string, c: char, b: string, p: string, r: string)
    requires |p| > 0 && |a| > 0
    requires c !in p
    requires !OccursAt(a, p, 0)
    requires ReplaceAll(a[1..] + [c] + b, p, r) == ReplaceAll(a[1..], p, r) + [c] + ReplaceAll(b, p, r)
    ensures ReplaceAll(a + [c] + b, p, r) == ReplaceAll(a, p, r) + [c] + ReplaceAll(b, p, r)
  {
    var s := a + [c] + b;
    var x := ReplaceAll(a[1..], p, r);
    var t := ReplaceAll(b, p, r);
    SliceOfJoin(a, c, b, 1);
    assert ReplaceAll(s, p, r) == [a[0]] + (x + [c] + t) by {
      assert s[0] == a[0];
      SeparatorKeepsStart(a, c, b, p);
      ReplaceMiss(s, p, r);
    }
    assert ReplaceAll(a, p, r) == [a[0]] + x by {
      ReplaceMiss(a, p, r);
    }
    JoinAround([a[0]], x, c, t);
  }

  /** Cutting the front of `a + [c] + b` inside `a`. */
  lemma SliceOfJoin(a: string, c: char, b: string, k: int)
    requires 0 <= k <= |a|
    ensures (a + [c] + b)[k..] == a[k..] + [c] + b
  {
  }

  lemma JoinAround(u: string, x: string, c: char, t: string)
    ensures u + (x + [c] + t) == (u + x) + [c] + t
  {
  }

  /** The code fence marker. */
  const Fence: string := "```"

  /** Removing every fence from any text leaves no fence behind: the
      leftmost occurrence is never preceded by a backtick, so no new fence
      forms where the pieces meet. */
  lemma {:induction false} RemovingFencesLeavesNone(s: string)
    ensures !IsInfix(Fence, ReplaceAll(s, Fence, ""))
    decreases |s|
  {
    var t := ReplaceAll(s, Fence, "");
    if |s| < 3 {
      ShortNoInfix(Fence, t);
    } else if OccursAt(s, Fence, 0) {
      ReplaceHit(s, Fence, "");
      assert t == ReplaceAll(s[3..], Fence, "");
      RemovingFencesLeavesNone(s[3..]);
    } else {
      RemovingFencesLeavesNone(s[1..]);
      FenceFreeAfterMiss(s);
    }
  }

  /** The step of `RemovingFencesLeavesNone` past a front character that
      starts no fence. */
  lemma {:induction false} FenceFreeAfterMiss(s: string)
    requires |s| >= 3 && !OccursAt(s, Fence, 0)
    requires !IsInfix(Fence, ReplaceAll(s[1..], Fence, ""))
    ensures !IsInfix(Fence, ReplaceAll(s, Fence, ""))
  {
    var t := ReplaceAll(s, Fence, "");
    var u := ReplaceAll(s[1..], Fence, "");
    ReplaceMiss(s, Fence, "");
    assert t == [s[0]] + u;
    NoFenceAtFront(s);
    forall i | 1 <= i <= |t| - 3
      ensures !OccursAt(t, Fence, i)
    {
      assert t[1..] == u;
      OccursInSuffix(t, 1, Fence, i - 1);
    }
  }

  /** After removing fences from a text that starts with none, no fence
      starts at the front: a leading backtick is followed by a character
      that is not one. */
  lemma {:induction false} NoFenceAtFront(s: string)
    requires |s| >= 3 && !OccursAt(s, Fence, 0)
    ensures !OccursAt(ReplaceAll(s, Fence, ""), Fence, 0)
  {
    var t := ReplaceAll(s, Fence, "");
    ReplaceMiss(s, Fence, "");
    assert t == [s[0]] + ReplaceAll(s[1..], Fence, "");
    if s[0] == '`' && |t| >= 3 {
      assert s[..3][0] == s[0];
      if s[1] != '`' {
        KeepsNonBacktickHead(s[1..]);
        assert t[1] == s[1];
      } else {
        assert s[..3][1] == s[1];
        assert s[..3][2] == s[2];
        KeepsNonBacktickHead(s[2..]);
        assert !OccursAt(s[1..], Fence, 0) by {
          if |s[1..]| >= 3 {
            assert s[1..][..3][1] == s[2];
          }
        }
        ReplaceMiss(s[1..], Fence, "");
        assert s[1..][1..] == s[2..];
        assert t[2] == s[2];
      }
    }
  }

  /** Fence removal keeps a leading character that is not a backtick. */
  lemma {:induction false} KeepsNonBacktickHead(s: string)
    requires |s| > 0 && s[0] != '`'
    ensures |ReplaceAll(s, Fence, "")| > 0
    ensures ReplaceAll(s, Fence, "")[0] == s[0]
  {
    if |s| >= 3 {
      assert s[..3][0] == s[0];
    }
  }
}

=== FILE: response.dfy ===
/** What `send_quiz` does to the model's reply before parsing it: strip
    white space, delete every "```json" and then every "```", strip again. */
module Response {
  import opened Infix
  import opened Replace
  import opened Whitespace

  /** The opening marker of a JSON code block. */
  const JsonFence: string := "```json"

  /** The reply of the language-model backend in gemini.py: a single space
      when the HTTP status is not 200, the message content otherwise. */
  function BackendReply(status: int, content: string): (reply: string)
    ensures reply == " " <==> status != 200 || content == " "
    ensures status == 200 ==> reply == content
  {
    if status != 200 then " " else content
  }

  /** The cleaned reply has no white space at either end and no code fence
      anywhere, so in particular no "```json". */
  function Clean(answer: string): (c: string)
    ensures Stripped(c)
    ensures !IsInfix(Fence, c)
    ensures !IsInfix(JsonFence, c)
  {
    var unfenced := ReplaceAll(ReplaceAll(Strip(answer), JsonFence, ""), Fence, "");
    RemovingFencesLeavesNone(ReplaceAll(Strip(answer), JsonFence, ""));
    StripKeepsAbsence(Fence, unfenced);
    JsonFenceNeedsFence(Strip(unfenced));
    Strip(unfenced)
  }

  /** What does not occur in a string does not occur in its strip. */
  lemma {:induction false} StripKeepsAbsence(p: string, s: string)
    requires !IsInfix(p, s)
    ensures !IsInfix(p, Strip(s))
  {
    StripIsInfix(s);
    if IsInfix(p, Strip(s)) {
      InfixTransitive(p, Strip(s), s);
    }
  }

  /** Any "```json" contains a "```". */
  lemma {:induction false} JsonFenceNeedsFence(s: string)
    ensures IsInfix(JsonFence, s) ==> IsInfix(Fence, s)
  {
    if IsInfix(JsonFence, s) {
      assert OccursAt(JsonFence, Fence, 0);
      InfixTransitive(Fence, JsonFence, s);
    }
  }

  /** Cleaning leaves a string alone exactly when it has no white space at
      either end and no code fence. */
  lemma {:induction false} CleanFixedPointIff(s: string)
    ensures Clean(s) == s <==> Stripped(s) && !IsInfix(Fence, s)
  {
    if Stripped(s) && !IsInfix(Fence, s) {
      StripFixedPoint(s);
      JsonFenceNeedsFence(s);
      ReplaceAbsent(s, JsonFence, "");
      ReplaceAbsent(s, Fence, "");
    }
  }

  /** A clean core surrounded by white space cleans to exactly that core. */
  lemma {:induction false} CleanPadded(a: string, m: string, b: string)
    requires AllSpace(a) && AllSpace(b)
    requires Stripped(m) && !IsInfix(Fence, m)
    ensures Clean(a + m + b) == m
  {
    StripPadded(a, m, b);
    JsonFenceNeedsFence(m);
    ReplaceAbsent(m, JsonFence, "");
    ReplaceAbsent(m, Fence, "");
    StripFixedPoint(m);
  }

  /** Cleaning twice is cleaning once. */
  lemma {:induction false} CleanIdempotent(s: string)
    ensures Clean(Clean(s)) == Clean(s)
  {
    CleanFixedPointIff(Clean(s));
  }

  /** A reply wrapped in a JSON code block, "```json\n" + body + "\n```",
      cleans to exactly the body when the body is itself clean. */
  lemma {:induction false} CleanFenced(body: string)
    requires Stripped(body)
    requires !IsInfix(Fence, body)
    ensures Clean(JsonFence + "\n" + body + "\n" + Fence) == body
  {
    var s := JsonFence + "\n" + body + "\n" + Fence;
    FencedIsStripped(body);
    StripFixedPoint(s);
    DropOpeningFence(body);
    DropClosingFence(body);
    NewlineIsSpace();
    StripPadded("\n", body, "\n");
    CleanSteps(s, "\n" + body + "\n" + Fence, "\n" + body + "\n");
  }

  lemma {:induction false} FencedIsStripped(body: string)
    ensures Stripped(JsonFence + "\n" + body + "\n" + Fence)
  {
    var s := JsonFence + "\n" + body + "\n" + Fence;
    assert s[0] == '`';
    assert s[|s| - 1] == Fence[2];
  }

  lemma NewlineIsSpace()
    ensures AllSpace("\n")
  {
    assert IsSpace("\n"[0]);
  }

  /** `Clean` as its three steps, for a string the first strip leaves alone. */
  lemma {:induction false} CleanSteps(s: string, once: string, twice: string)
    requires Strip(s) == s
    requires ReplaceAll(s, JsonFence, "") == once
    requires ReplaceAll(once, Fence, "") == twice
    ensures Clean(s) == Strip(twice)
  {
  }

  /** Deleting "```json" removes the opening marker only: the closing "```"
      is too short to match. */
  lemma {:induction false} DropOpeningFence(body: string)
    requires !IsInfix(Fence, body)
    ensures ReplaceAll(JsonFence + "\n" + body + "\n" + Fence, JsonFence, "") == "\n" + body + "\n" + Fence
  {
    var rest := body + "\n" + Fence;
    KeepsFencedTail(body);
    KeepsNewlineHead(rest);
    assert JsonFence + "\n" + body + "\n" + Fence == JsonFence + ("\n" + rest);
    ReplaceLeading(JsonFence, "\n" + rest, "");
  }

  /** Deleting "```json" leaves `body + "\n```"` alone: the body holds no
      fence and the closing marker is too short. */
  lemma KeepsFencedTail(body: string)
    requires !IsInfix(Fence, body)
    ensures ReplaceAll(body + "\n" + Fence, JsonFence, "") == body + "\n" + Fence
  {
    JsonFenceNeedsFence(body);
    assert body + "\n" + Fence == body + ['\n'] + Fence;
    ReplaceAroundSeparator(body, '\n', Fence, JsonFence, "");
    ReplaceAbsent(body, JsonFence, "");
    assert ReplaceAll(Fence, JsonFence, "") == Fence;
  }

  /** A leading newline is copied by the deletion of "```json". */
  lemma KeepsNewlineHead(rest: string)
    requires ReplaceAll(rest, JsonFence, "") == rest
    ensures ReplaceAll("\n" + rest, JsonFence, "") == "\n" + rest
  {
    assert "\n" + rest == [] + ['\n'] + rest;
    ReplaceAroundSeparator([], '\n', rest, JsonFence, "");
    assert ReplaceAll([], JsonFence, "") == [];
  }

  /** Deleting "```" then removes the closing marker. */
  lemma {:induction false} DropClosingFence(body: string)
    requires !IsInfix(Fence, body)
    ensures ReplaceAll("\n" + body + "\n" + Fence, Fence, "") == "\n" + body + "\n"
  {
    var rest := body + "\n" + Fence;
    assert "\n" + body + "\n" + Fence == [] + ['\n'] + rest;
    ReplaceAroundSeparator([], '\n', rest, Fence, "");
    assert rest == body + ['\n'] + Fence;
    ReplaceAroundSeparator(body, '\n', Fence, Fence, "");
    ReplaceAbsent(body, Fence, "");
    assert ReplaceAll(Fence, Fence, "") == "";
  }

  /** The backend's failure reply cleans to the empty string. */
  lemma {:induction false} FailureReplyCleansEmpty(status: int, content: string)
    requires status != 200
    ensures Clean(BackendReply(status, content)) == ""
  {
    var reply := BackendReply(status, content);
    assert |reply| == 1 && reply[0] == ' ';
    AllSpaceCleansEmpty(reply);
  }

  /** A reply of white space only cleans to the empty string. */
  lemma {:induction false} AllSpaceCleansEmpty(s: string)
    requires AllSpace(s)
    ensures Clean(s) == ""
  {
    ShortNoInfix(Fence, []);
    CleanPadded(s, [], []);
    assert s + [] + [] == s;
  }
}

=== FILE: scenarios.dfy ===
/** Concrete replies run through an attempt: a fenced reply, an answer
    index past the options, and a reply that is not JSON. */
module Scenarios {
  import opened Wrappers
  import opened Infix
  import opened Extraction
  import opened Publish
  import Response
  import Whitespace
  import Replace

  /** `{"question":"Q","options":["a","b","c"],"correct_option_id":1,"explanation":"e"}` */
  const QuizJson: string :=
    "{\"question\":\"Q\","
    + "\"options\":[\"a\",\"b\",\"c\"],"
    + "\"correct_option_id\":1,"
    + "\"explanation\":\"e\"}"

  const QuizFields: Fields := Fields(Some("Q"), Some(["a", "b", "c"]), Some(1), Some("e"))

  /** The same object inside a JSON code block. */
  const FencedReply: string := Response.JsonFence + "\n" + QuizJson + "\n" + Replace.Fence

  lemma QuizJsonIsClean()
    ensures Whitespace.Stripped(QuizJson)
    ensures !IsInfix(Replace.Fence, QuizJson)
  {
    assert QuizJson[0] == '{';
    assert QuizJson[|QuizJson| - 1] == '}';
    assert '`' !in QuizJson;
    MissingCharNoInfix(Replace.Fence, QuizJson, 0);
  }

  /** The fenced reply is cleaned down to the object. */
  lemma FencedReplyCleans()
    ensures Response.Clean(FencedReply) == QuizJson
  {
    QuizJsonIsClean();
    Response.CleanFenced(QuizJson);
  }

  /** The object read from the fenced reply is sent with answer index 1,
      the option "b". */
  lemma {:induction false} FencedReplySent(h: seq<string>, parse: string -> Option<Fields>)
    requires parse(QuizJson) == Some(QuizFields)
    ensures var a := Run(h, FencedReply, parse, true, Saved);
      a.outcome == Sent("b") && a.history == History.Record(h, "Q")
  {
    FencedReplyRead(parse);
    RunSendsPrepared(h, FencedReply, parse, Quiz("Q", ["a", "b", "c"], 1, "e"));
    assert ["a", "b", "c"][1] == "b";
  }

  lemma {:induction false} FencedReplyRead(parse: string -> Option<Fields>)
    requires parse(QuizJson) == Some(QuizFields)
    ensures Prepare(Response.Clean(FencedReply), Decoded(FencedReply, parse)) == Success(Quiz("Q", ["a", "b", "c"], 1, "e"))
  {
    FencedReplyCleans();
  }

  /** `correct_option_id` 5 with two options is refused with (5, 2). */
  lemma {:induction false} IndexPastOptionsRefused(h: seq<string>, reply: string, parse: string -> Option<Fields>, sendOk: bool, save: SaveStep)
    requires parse(Response.Clean(reply)) == Some(Fields(Some("Q"), Some(["a", "b"]), Some(5), Some("e")))
    ensures var a := Run(h, reply, parse, sendOk, save);
      a.outcome == AnswerOutOfRange(5, 2) && a.outcome.Returned() == Some(false) && a.history == h
  {
  }

  const Apology: string := "sorry, I can't help"

  /** A reply that does not decode is refused, and the failure carries the
      reply text unchanged (it is already clean). */
  lemma {:induction false} NonJsonRefused(h: seq<string>, parse: string -> Option<Fields>, sendOk: bool, save: SaveStep)
    requires parse(Apology) == None
    ensures var a := Run(h, Apology, parse, sendOk, save);
      a.outcome == NotJson(Apology) && a.history == h
  {
    ApologyIsClean();
  }

  lemma ApologyIsClean()
    ensures Response.Clean(Apology) == Apology
  {
    assert '`' !in Apology;
    MissingCharNoInfix(Replace.Fence, Apology, 0);
    assert Whitespace.Stripped(Apology);
    Response.CleanFixedPointIff(Apology);
  }
}

=== FILE: whitespace.dfy ===
/** Python's `str.strip()` with no argument: removes leading and trailing
    characters for which `str.isspace()` holds. */
module Whitespace {
  import opened Infix

  /** The characters Python's `str.isspace()` accepts: Unicode white space
      (category Zs) and the characters with bidirectional class WS, B or S. */
  predicate IsSpace(c: char)
  {
    || c == '\t' || c == '\n' || c == '\U{000B}' || c == '\U{000C}' || c == '\r'
    || ('\U{001C}' <= c <= '\U{001F}')
    || c == ' ' || c == '\U{0085}' || c == '\U{00A0}' || c == '\U{1680}'
    || ('\U{2000}' <= c <= '\U{200A}')
    || c == '\U{2028}' || c == '\U{2029}' || c == '\U{202F}' || c == '\U{205F}' || c == '\U{3000}'
  }

  predicate AllSpace(s: string)
  {
    forall i :: 0 <= i < |s| ==> IsSpace(s[i])
  }

  /** Neither end of `s` is white space. */
  predicate Stripped(s: string)
  {
    |s| == 0 || (!IsSpace(s[0]) && !IsSpace(s[|s| - 1]))
  }

  /** `str.lstrip()`: the longest suffix of `s` that does not start with white space. */
  function TrimStart(s: string): (r: string)
    ensures |r| <= |s| && r == s[|s| - |r|..]
    ensures AllSpace(s[..|s| - |r|])
    ensures |r| == 0 || !IsSpace(r[0])
  {
    if |s| > 0 && IsSpace(s[0]) then
      var r := TrimStart(s[1..]);
      assert s[..|s| - |r|] == [s[0]] + s[1..][..|s[1..]| - |r|];
      r
    else s
  }

  /** `str.rstrip()`: the longest prefix of `s` that does not end with white space. */
  function TrimEnd(s: string): (r: string)
    ensures |r| <= |s| && r == s[..|r|]
    ensures AllSpace(s[|r|..])
    ensures |r| == 0 || !IsSpace(r[|r| - 1])
  {
    if |s| > 0 && IsSpace(s[|s| - 1]) then
      var r := TrimEnd(s[..|s| - 1]);
      assert s[|r|..] == s[..|s| - 1][|r|..] + [s[|s| - 1]];
      r
    else s
  }

  /** `s` is `m` surrounded by white space only. */
  ghost predicate Padded(s: string, m: string)
  {
    exists i :: 0 <= i <= |s| - |m| && s[i..i + |m|] == m && AllSpace(s[..i]) && AllSpace(s[i + |m|..])
  }

  function Strip(s: string): (r: string)
    ensures Stripped(r)
    ensures |r| <= |s|
  {
    TrimEnd(TrimStart(s))
  }

  /** Strip removes white space and nothing else: the result sits in the
      input with only white space before and after it. */
  lemma {:induction false} StripRemovesOnlySpace(s: string)
    ensures Padded(s, Strip(s))
  {
    var l := TrimStart(s);
    var r := TrimEnd(l);
    var i := |s| - |l|;
    assert l == s[i..];
    assert r == l[..|r|];
    assert s[i..i + |r|] == r;
    assert s[i + |r|..] == l[|r|..];
    PaddedAt(s, r, i);
  }

  /** The witness for `Padded`: `m` found at `i` with white space on both sides. */
  lemma {:induction false} PaddedAt(s: string, m: string, i: int)
    requires 0 <= i <= |s| - |m|
    requires s[i..i + |m|] == m && AllSpace(s[..i]) && AllSpace(s[i + |m|..])
    ensures Padded(s, m)
  {
  }

  lemma {:induction false} TrimStartPadded(a: string, t: string)
    requires AllSpace(a)
    ensures TrimStart(a + t) == TrimStart(t)
    decreases |a|
  {
    if |a| > 0 {
      assert (a + t)[1..] == a[1..] + t;
      TrimStartPadded(a[1..], t);
    } else {
      assert a + t == t;
    }
  }

  lemma {:induction false} TrimEndPadded(t: string, b: string)
    requires AllSpace(b)
    ensures TrimEnd(t + b) == TrimEnd(t)
    decreases |b|
  {
    if |b| > 0 {
      assert (t + b)[..|t + b| - 1] == t + b[..|b| - 1];
      TrimEndPadded(t, b[..|b| - 1]);
    } else {
      assert t + b == t;
    }
  }

  /** Stripping white space around a stripped core gives back exactly that core;
      with the contract of `Strip` this pins its result down completely. */
  lemma {:induction false} StripPadded(a: string, m: string, b: string)
    requires AllSpace(a) && AllSpace(b) && Stripped(m)
    ensures Strip(a + m + b) == m
  {
    assert a + m + b == a + (m + b);
    TrimStartPadded(a, m + b);
    if |m| == 0 {
      assert m + b == b + [];
      TrimStartPadded(b, []);
      assert TrimStart(a + m + b) == [];
    } else {
      assert (m + b)[0] == m[0];
      assert TrimStart(a + m + b) == m + b;
      TrimEndPadded(m, b);
      assert TrimEnd(m) == m;
    }
  }

  /** The strip of a string is a substring of it. */
  lemma {:induction false} StripIsInfix(s: string)
    ensures IsInfix(Strip(s), s)
  {
    var l := TrimStart(s);
    var m := Strip(s);
    var k := |s| - |l|;
    assert m == l[..|m|];
    assert s[k..k + |m|] == m;
    assert OccursAt(s, m, k);
  }

  /** A string is its own strip exactly when neither end is white space. */
  lemma {:induction false} StripFixedPoint(s: string)
    ensures Strip(s) == s <==> Stripped(s)
  {
    if Stripped(s) {
      StripPadded([], s, []);
      assert [] + s + [] == s;
    }
  }

  /** Stripping twice is stripping once. */
  lemma {:induction false} StripIdempotent(s: string)
    ensures Strip(Strip(s)) == Strip(s)
  {
    StripFixedPoint(Strip(s));
  }
}

=== FILE: wrappers.dfy ===
/** Option and Result values used for the optional JSON keys and the
    raising/non-raising paths of a publish attempt. */
module Wrappers {

  datatype Option<+T> = None | Some(value: T)

  datatype Result<+R, +E> = Success(value: R) | Failure(error: E)
}
